=== FILE: README.md ===
# GWToolbox++ helper logic in Dafny

This project models the deterministic logic of three parts of GWToolbox++, an
in-process add-on for the Guild Wars client. The logic is written as pure
functions over explicit state records, and the project proves properties
about it.

- **Pathing** (`pathing.dfy`). This part of the pathfinding engine has
  visible bodies. It covers:
  - the closed `Error` enumeration of search outcomes;
  - the projection of a visibility-graph `point` onto a `GamePos`, which takes
    the z-plane from the layer of the owning trapezoid;
  - the `MilePath::ready()` test over build progress;
  - the lifecycle of an `AStar::Path`: construct, `insertPoint`, `finalize`
    (reverses once, then locks), `clear` and `setCost`.
- **ImGui helpers** (`spaced_elements.dfy`, `combo.dfy`, `window_clamp.dfy`).
  These cover:
  - the spaced-element column counter;
  - the type-ahead, keyboard-match, arrow-key and commit rules of `MyCombo`;
  - the rules that keep windows on screen and restore them later.
- **World map widget** (`world_map.dfy`). This covers:
  - the world-map bounds of a map, with its fallback fields;
  - the "current map first, then lowest id" map lookup;
  - the conversion between game units and world-map units (96 game units per
    world-map unit, with the y axis inverted);
  - the mouse-message state machine of `WndProc`.

`geometry.dfy` holds the shared vector, rectangle and game-position types.
`wrappers.dfy` holds `Option`.

Host state becomes function parameters:
- ImGui's IO and window data;
- the game's map info, map context and world-map view;
- the input characters and pressed keys of a frame.

C++ statics (`keyboard_selected`, the type-ahead `word`, `original_positions`,
`world_map_clicking`, ...) become fields of explicit state records. Null
pointers become `None`. Single-precision floats are modelled as mathematical
reals. Unsigned 32-bit fields are modelled as `nat`.

The rectangle hit test uses ImGui's `ImRect::Contains`. It includes the minimum
corner and excludes the maximum corner. ImGui itself is not part of this model.

`ClampWindowToScreen` only moves a window back across the right and bottom
edges of the display, although its comment speaks of keeping the entire
content on screen. A window past the left or top edge stays where it is, and
a window wider than the display ends at a negative x.

`finalize()` only reverses the points and sets the ready flag. It does not
touch the cost; `setCost()` sets it. `clear()` keeps the cost.

## Model

| member | source | states |
|---|---|---|
| `Pathing.ErrorCode` | GWToolboxdll/Windows/Pathfinding/Pathing.h:11-20 | Each enumerator's underlying value is below 8, and the value is 0 exactly for `OK`. |
| `Pathing.ErrorFromCode` | GWToolboxdll/Windows/Pathfinding/Pathing.h:11-20 | A value names an enumerator exactly when it is below 8. |
| `Pathing.ErrorCodeRoundTrip` | GWToolboxdll/Windows/Pathfinding/Pathing.h:11-20 | Reading back an enumerator's value gives the same enumerator. |
| `Pathing.CodeErrorRoundTrip` | GWToolboxdll/Windows/Pathfinding/Pathing.h:11-20 | Every value below 8 names an enumerator whose value it is. |
| `Pathing.ErrorCodesDistinct` | GWToolboxdll/Windows/Pathfinding/Pathing.h:11-20 | Two enumerators have the same value only if they are the same, so all eight are distinct. |
| `Pathing.OwningLayer` | GWToolboxdll/Windows/Pathfinding/Pathing.h:115-121 | A point has an owning layer exactly when it has a box and that box has a trapezoid; the layer is that trapezoid's. |
| `Pathing.ToGamePos` | GWToolboxdll/Windows/Pathfinding/Pathing.h:119-122 | The conversion keeps x and y. The z-plane is the owning trapezoid's layer, or 0 when the box or its trapezoid is null. |
| `Pathing.ToGamePosIgnoresMetadata` | GWToolboxdll/Windows/Pathfinding/Pathing.h:110-122 | The id, the second box and the portal never affect the converted position. |
| `Pathing.OwnerlessLooksLikeLayerZero` | GWToolboxdll/Windows/Pathfinding/Pathing.h:119-122 | A point with no box or no trapezoid and a point on a layer-0 trapezoid at the same position project to the same game position. So a z-plane of 0 does not say whether the point has an owner. |
| `Pathing.IsReady` | GWToolboxdll/Windows/Pathfinding/Pathing.h:87-95 | On the percentage scale 0..100, `ready()` holds exactly at 100. Progress past 100 still counts as ready, and negative progress never does. |
| `Pathing.ReadyStaysReady` | GWToolboxdll/Windows/Pathfinding/Pathing.h:92-95 | Readiness is upward-closed: more progress never makes a ready graph unready. |
| `Pathing.Reverse` | GWToolboxdll/Windows/Pathfinding/Pathing.h:221 | Reversal keeps the length and puts element `n-1-i` at position `i`. |
| `Pathing.ReverseInvolution` | GWToolboxdll/Windows/Pathfinding/Pathing.h:221 | Reversing twice gives back the original sequence. |
| `Pathing.NewPath` | GWToolboxdll/Windows/Pathfinding/Pathing.h:183-229 | A new path has no points, has cost 0 and is not ready. |
| `Pathing.InsertPoint` | GWToolboxdll/Windows/Pathfinding/Pathing.h:208-211 | Exactly one point is added at the end, the earlier points stay as they were, and the cost and ready flag do not change. |
| `Pathing.SetCost` | GWToolboxdll/Windows/Pathfinding/Pathing.h:213-216 | The cost becomes the given value; the points and the ready flag do not change. |
| `Pathing.Clear` | GWToolboxdll/Windows/Pathfinding/Pathing.h:202-206 | The points become empty and the path is no longer ready, but the cost is kept. |
| `Pathing.Finalize` | GWToolboxdll/Windows/Pathfinding/Pathing.h:218-223 | The path ends up ready and the cost is kept. An unfinalized path has its points reversed; an already finalized path keeps its points. |
| `Pathing.FinalizeInPlace` | GWToolboxdll/Windows/Pathfinding/Pathing.h:218-223 | The in-place two-pointer swap of `std::ranges::reverse` has the same result as `finalize()`. |
| `Pathing.InsertAllAppends` | GWToolboxdll/Windows/Pathfinding/Pathing.h:208-211 | A sequence of `insertPoint` calls appends exactly those points, in call order, and changes neither the cost nor the ready flag. |
| `Pathing.FinalizeIdempotent` | GWToolboxdll/Windows/Pathfinding/Pathing.h:218-223 | A second `finalize()` changes nothing, so there is no double reversal. |
| `Pathing.FinalizeRestoresRouteOrder` | GWToolboxdll/Windows/Pathfinding/Pathing.h:208-223 | Insert a route goal-first into a new path and finalize it: the result is ready, holds the route start-first, and has cost 0 until `setCost()` is called. |
| `Pathing.ClearRearmsFinalize` | GWToolboxdll/Windows/Pathfinding/Pathing.h:202-223 | After `clear()`, the next insertions are reversed again by `finalize()`, and the old cost is still there. |
| `Pathing.ReadyLifecycle` | GWToolboxdll/Windows/Pathfinding/Pathing.h:197-223 | `ready()` holds exactly when `finalize()` would leave the path unchanged. Only `finalize()` makes a path ready; `clear()` and construction make it unready; `insertPoint()` and `setCost()` keep the flag. |
| `Pathing.InsertAfterFinalizeKeepsOrder` | GWToolboxdll/Windows/Pathfinding/Pathing.h:208-223 | Points inserted after `finalize()` stay at the end in insertion order, because later `finalize()` calls no longer reverse. |
| `SpacedElements.Start` | GWToolboxdll/ImGuiAddons.cpp:33-42 | The counter resets to 0. The width is scaled by the font scale when requested. The column count is the floor of the available width divided by that width. |
| `SpacedElements.Next` | GWToolboxdll/ImGuiAddons.cpp:44-55 | A same-line placement happens exactly when the previous index is non-zero and below `cols`, at `width*idx + indent`, and the index goes up by one. Otherwise the row wraps and the index becomes 1. From any non-negative index the new index lies in `1..max(cols,1)`. |
| `SpacedElements.CounterAfter` | GWToolboxdll/ImGuiAddons.cpp:39-55 | After a reset and `n > 0` calls, the index is `(n-1) mod C + 1`, where `C = max(cols,1)`. |
| `SpacedElements.ColumnLayout` | GWToolboxdll/ImGuiAddons.cpp:39-55 | After a reset, element `k` (counting from 0) lands in column `k mod C`. It goes on the same line, at `width*(k mod C) + indent`, exactly when that column is not 0. |
| `Combo.ToLower` | GWToolboxdll/ImGuiAddons.cpp:350 | ASCII upper-case letters map to their lower-case letters; every other character stays as it is. |
| `Combo.Cap` | GWToolboxdll/ImGuiAddons.cpp:325-329 | The word buffer holds the first `min(n, 63)` characters of its content. |
| `Combo.TypeChar` | GWToolboxdll/ImGuiAddons.cpp:316-338 | Characters other than space, digits and ASCII letters are ignored. A word character resets the timer and requests a match. Within 0.5 s it is appended while fewer than 63 characters are held; after the delay the word restarts as that single character. |
| `Combo.UntilNul` | GWToolboxdll/ImGuiAddons.cpp:316 | The queue is read up to, and not including, its first NUL. |
| `Combo.WordChars` | GWToolboxdll/ImGuiAddons.cpp:318-321 | Every output character is a word character (space, ASCII digit or ASCII letter). A single character is kept exactly when it is one. An input made only of word characters is kept whole, and one with none of them gives the empty word. |
| `Combo.WordCharsAppend` | GWToolboxdll/ImGuiAddons.cpp:316-321 | Filtering distributes over concatenation. Together with the single-character case, this means exactly the word characters are kept, in their input order. |
| `Combo.FeedCharsClosedForm` | GWToolboxdll/ImGuiAddons.cpp:312-340 | Let `f` be the typed word characters. If `f` is empty, nothing changes. Otherwise the timer is 0, a match is requested, and the word is the first 63 characters of the old word followed by `f` (when the first of them came within the delay) or of `f` alone (when it came later). |
| `Combo.TypeAheadFrame` | GWToolboxdll/ImGuiAddons.cpp:313-340 | One open frame adds the frame time to the timer and feeds the queue up to its first NUL. With no word characters in it, only the timer moves and no match is requested. Otherwise the timer is 0, a match is requested, and the word extends the old one (first 63 characters) when the first word character came within 0.5 s of the last update, or restarts from the typed characters. |
| `Combo.CommonPrefix` | GWToolboxdll/ImGuiAddons.cpp:349-352 | The result is a length that both strings reach. The two strings agree case-insensitively on every position before it, and differ at it unless one of them ends there. |
| `Combo.MatchScan` | GWToolboxdll/ImGuiAddons.cpp:343-360 | After the loop over the first `n` items: `best` is -1 exactly when every getter failed, and then the selection is unchanged. Otherwise the selection is a readable item with the longest prefix, and every readable item before it has a strictly shorter one. |
| `Combo.KeyboardMatch` | GWToolboxdll/ImGuiAddons.cpp:343-360 | If any getter succeeds, the new selection is the first item with the longest common prefix. If none succeeds, the selection stays. |
| `Combo.SelectionAfterTyping` | GWToolboxdll/ImGuiAddons.cpp:313-360 | The type-ahead state is the one the frame's typing produced, and the match runs against that word. The selection is unchanged when no word character was typed, or when no item can be read. Otherwise it is the first longest match. A selection in `[-1, count-1]` stays in that range. |
| `Combo.FirstLongestUnique` | GWToolboxdll/ImGuiAddons.cpp:342-360 | At most one index is the first longest match, so ties keep the earlier index. |
| `Combo.Navigate` | GWToolboxdll/ImGuiAddons.cpp:369-376 | Up moves only from above 0, and Down moves only from below `count-1`. When both are pressed, Up is applied first and then Down: a selection inside the list stays, one at 0 or -1 moves down one if there is room, and one past the end moves up one. A selection in `[-1, count-1]` stays in that range. Without Down it never increases; without Up it never decreases. |
| `Combo.NavigateUpThenDown` | GWToolboxdll/ImGuiAddons.cpp:369-376 | Pressing both arrows in one frame has the same effect as Up followed by Down. |
| `Combo.ComboFrame` | GWToolboxdll/ImGuiAddons.cpp:307-309 | When the combo is not open, the frame changes nothing and returns false. |
| `Combo.CommitRules` | GWToolboxdll/ImGuiAddons.cpp:362-392 | Enter with a selection of 0 or more commits that selection to the current item, resets the selection to -1 and returns true. Clicking item `i` does the same with `i`. The frame returns true only in these two cases; otherwise the current item stays and the shared selection is the one after typing, moved by the Up and Down keys. An open frame always keeps the type-ahead state its typing produced. |
| `Combo.SelectionStaysInRange` | GWToolboxdll/ImGuiAddons.cpp:342-392 | If the selection starts in `[-1, count-1]`, it stays there, and any committed item is a valid index. |
| `Combo.StaleSelectionCommitted` | GWToolboxdll/ImGuiAddons.cpp:301-367 | Because the selection is shared between combos, Enter commits any index left over from a longer list, reports a change, and leaves the current item outside the current list. |
| `Combo.PreviewAfterCommit` | GWToolboxdll/ImGuiAddons.cpp:297-392 | The preview shows the current item's text when it is in range and its getter succeeds, and the caller's text otherwise. Clicking a readable item (without Enter) makes the next preview that item's text. After a stale Enter commit, the preview falls back to the caller's text. |
| `WindowClamp.OriginalPos` | GWToolboxdll/ImGuiAddons.cpp:534-535 | The position used to judge clamping is the window's remembered position when there is one, and its current position otherwise. |
| `WindowClamp.ClampAxisMovesLeast` | GWToolboxdll/ImGuiAddons.cpp:548-549 | Clamping moves a window no further than it must. Among the coordinates at or before the current one whose far edge fits, the clamped coordinate is the largest. |
| `WindowClamp.ClampAxis` | GWToolboxdll/ImGuiAddons.cpp:548-549 | A coordinate whose far edge passes the limit is moved so that the far edge is exactly at the limit. Otherwise it is unchanged. |
| `WindowClamp.ClampWindow` | GWToolboxdll/ImGuiAddons.cpp:527-570 | Entries of other windows never change. If the original position overflows, the window is moved so that its right and bottom edges end inside the display, each overflowing far edge exactly on the display edge. Its original position is remembered (or the clamped position, if the window is collapsed). If it fits and no window is being dragged, a moved window returns to its remembered position and is forgotten. Otherwise nothing happens. |
| `WindowClamp.ClampThenRestore` | GWToolboxdll/ImGuiAddons.cpp:527-570 | Round trip: a window that overflows is clamped. Once the display fits it again, the window goes back to its original position and the memory is as it was before. |
| `WindowClamp.ClampKeepsOriginal` | GWToolboxdll/ImGuiAddons.cpp:534-556 | After a window that is not collapsed is clamped, it is still judged by the same original position. A second frame with the same display clamps it to the same place. |
| `WindowClamp.ClampWindowIsLocal` | GWToolboxdll/ImGuiAddons.cpp:532-535 | The result for a window depends only on that window's own remembered entry. |
| `WindowClamp.ClampEach` | GWToolboxdll/ImGuiAddons.cpp:574-579 | There is one move per window, and the entries of windows not in the list are unchanged. |
| `WindowClamp.ClampEachIndependent` | GWToolboxdll/ImGuiAddons.cpp:574-579 | With distinct window names, each window is clamped as if it were the only one. |
| `WindowClamp.ClampAllWindowsToScreen` | GWToolboxdll/ImGuiAddons.cpp:572-587 | With `clamp` false, every remembered position is restored and the memory is emptied. With `clamp` true, every window is clamped, nothing is restored, and entries of other windows are kept. |
| `WindowClamp.ClampEachMemory` | GWToolboxdll/ImGuiAddons.cpp:541-545 | With distinct names, each listed window's remembered entry after the whole pass is exactly the one clamping it alone leaves. |
| `WindowClamp.ClampAllThenRestoreAll` | GWToolboxdll/ImGuiAddons.cpp:572-587 | Clamp all, then switch clamping off: a window that is not collapsed and stuck out is restored to its original position, and the memory ends empty. |
| `WindowClamp.ClampAllFits` | GWToolboxdll/ImGuiAddons.cpp:572-579 | After clamping all windows, every window that overflowed (judged by its original position) has been moved so that its right and bottom edges end inside the display. |
| `WindowClamp.ClampCoversFarEdgesOnly` | GWToolboxdll/ImGuiAddons.cpp:538-549 | Only the right and bottom edges are clamped. A window sticking out past the left or top edge is not moved, and a window wider than the display is moved to a negative x. |
| `WorldMap.WorldMapBounds` | GWToolboxdll/Widgets/WorldMapWidget.cpp:64-75 | The bounds come from the `icon_start_x` fields, or from the `_dupe` fields when `icon_start_x` is 0. A zero minimum x means both start fields are 0. |
| `WorldMap.BoundsReadOneSet` | GWToolboxdll/Widgets/WorldMapWidget.cpp:64-75 | Only one set of icon bounds is read. The duplicate set is irrelevant while the primary start x is non-zero, and the primary set is irrelevant once it is 0. |
| `WorldMap.ContainsIffConvertible` | GWToolboxdll/Widgets/WorldMapWidget.cpp:77-83 | A map contains a world-map position exactly when it is on the world map and, taken as the current map, the position converts to game coordinates (given map context). |
| `WorldMap.FirstMapContaining` | GWToolboxdll/Widgets/WorldMapWidget.cpp:89-93 | The result is the lowest id in the range whose map contains the position, or none if no such id exists. |
| `WorldMap.GetMapIdForLocation` | GWToolboxdll/Widgets/WorldMapWidget.cpp:85-95 | The current map is returned if it contains the position. Otherwise the result is the lowest id in `1..Count-1` that contains it, or `MapID::None` if none does. |
| `WorldMap.MapIdForLocationContains` | GWToolboxdll/Widgets/WorldMapWidget.cpp:85-95 | An answer other than None always contains the position. None from a current map other than None means no searched map contains it. |
| `WorldMap.MarkerConvertsOnCurrentMap` | GWToolboxdll/Widgets/WorldMapWidget.cpp:172-174 | The marker map is found by location (line 132). When that map is the current one and not None, the current map contains the point, so the conversion succeeds whenever there is map context. |
| `WorldMap.ConvertibleMeansCurrentMap` | GWToolboxdll/Widgets/WorldMapWidget.cpp:313-319 | If the conversion on a current map that is on the world map succeeds, that map contains the point and the location lookup returns it. |
| `WorldMap.MapMidWorldPoint` | GWToolboxdll/Widgets/WorldMapWidget.cpp:301-304 | The shared origin lies at or beyond the bounds' minimum corner. Its offset from that corner, times 96, is the magnitude of the game map's left edge on x and of its top edge on y. |
| `WorldMap.GamePosToWorldMap` | GWToolboxdll/Widgets/WorldMapWidget.cpp:287-311 | The conversion fails exactly when area info or map context is missing. Otherwise the offset from the shared origin, times 96, equals the game x and minus the game y. |
| `WorldMap.WorldMapToGamePos` | GWToolboxdll/Widgets/WorldMapWidget.cpp:313-340 | The conversion fails exactly when area info is missing, the position is outside the current map's bounds, or map context is missing. Otherwise the result, divided by 96 and y-inverted, lands back on the world-map point. |
| `WorldMap.GameWorldGameRoundTrip` | GWToolboxdll/Widgets/WorldMapWidget.cpp:301-338 | Converting game to world map and back returns the original x and y whenever the world-map point lies inside the bounds. |
| `WorldMap.WorldGameWorldRoundTrip` | GWToolboxdll/Widgets/WorldMapWidget.cpp:301-338 | Converting world map to game and back returns the original world-map point, whatever the z-plane. |
| `WorldMap.HitControl` | GWToolboxdll/Widgets/WorldMapWidget.cpp:534-560 | The hit is the first control, in the order remove-marker, place-marker, show-lines, hard-mode, show-all, whose rectangle contains the click. The result is none when no rectangle contains it. |
| `WorldMap.WndProc` | GWToolboxdll/Widgets/WorldMapWidget.cpp:507-564 | Only a left click can be consumed. Right-down starts a click. Mouse-move and right-up end it. Other messages leave it alone. Messages other than a left click never change the two toggles and queue no game-thread work. The recorded click position changes only when the context menu opens. |
| `WorldMap.ContextMenuRule` | GWToolboxdll/Widgets/WorldMapWidget.cpp:517-529 | The context menu opens exactly on a right-up during a click while the world-map view exists at zoom 1.0. When it opens, it records the click shifted by the view's top-left corner. |
| `WorldMap.LeftClickRule` | GWToolboxdll/Widgets/WorldMapWidget.cpp:530-561 | A left click is consumed exactly when the widget was drawn, the world map is showing and a control was hit. Show-lines flips only on a show-lines hit, show-all only on a show-all hit, and the hard-mode toggle is queued only on a hard-mode hit. |
| `WorldMap.ClearedControlNeverHit` | GWToolboxdll/Widgets/WorldMapWidget.cpp:441-443 | The cleared hard-mode rectangle (outside outposts) can never be hit. |
| `WorldMap.ClickingAfterRun` | GWToolboxdll/Widgets/WorldMapWidget.cpp:511-520 | After any message sequence, a click is in progress exactly when some right-down has not been followed by a mouse-move or right-up, or when a click was already in progress and nothing since has ended it. |
| `WorldMap.ContextMenuNeedsUnbrokenClick` | GWToolboxdll/Widgets/WorldMapWidget.cpp:511-529 | The menu opens only for a right-up that follows a right-down with no mouse-move or right-up in between. |

## Left out

- WindowClamp.ClampWindow: does not promise that a clamped window is entirely on screen. `ClampWindowToScreen` clamps only the right and bottom edges (GWToolboxdll/ImGuiAddons.cpp:548-549), and `ClampCoversFarEdgesOnly` shows the resulting left and top gap.
- The pathfinding algorithms are out: `SimplePT::Touching`, `TouchingHeight` and `IsOnPathingTrapezoid`, the `AABB::intersect` overloads, `Portal::intersect`, and the `MilePath` builders (`GenerateTeleportGraph`, `CreatePoint`, `HasLineOfSight`, `FindAABB`, `GetClosestPoint`, `GenerateAABBs`, `GenerateAABBGraph`, `CreatePortal`, `GeneratePoints`, `GenerateVisibilityGraph`, the teleport insertion). `AStar::Search`, `BuildPath`, `TeleporterHeuristic`, `InsertPointIntoVisGraph` and `GetClosestPoint` are out too. `Pathing.h` only declares them; their definitions are not part of this model.
- `MilePath::shutdown`, `stopProcessing`, `isProcessing`, the volatile flags and the worker thread are left out because they are cross-thread polling and joining.
- The `Path::points()` and `cost()` accessors are the record's fields. The `m_astar` back-pointer is not modelled.
- All ImGui drawing and widget calls are left out, as are popups, `ConfirmDialog`/`DrawContextMenu` callback plumbing, `ChooseKey`/`GetPressedKeys` (host input), `CompositeIconButton` and `ColorPalette` layout, and scrolling in `MyCombo` (`keyboard_selected_now`, `SetScrollHereY`).
- `CalculateUvCrop` and `GetSpriteUvCoords` are left out. They depend on Direct3D texture queries, and `GetSpriteUvCoords` writes `uv1_out->x` twice, so it promises nothing usable.
- `SetCustomQuestMarker`, `OnUIMessage`, `EmulateSelectedQuest` and `WorldMapContextMenu` are left out: they are packet emulation, game hooks and drawing. `Initialize`, `ShowAllOutposts` and `SignalTerminate` (memory patches) are left out, and so are `LoadSettings`/`SaveSettings` (ini persistence). The rectangles and the `drawn` flag that `Draw` and `WorldMapContextMenu` set are inputs to `WndProc` through `Host`.
- The two enqueued game-thread actions (toggle hard mode, apply show-all-outposts) are reported as effects, not run. The show-all effect reads the toggle when it runs, so it carries no value.
- Floats are modelled as reals, so nothing is claimed about float rounding. This covers the conversions, the clamp arithmetic, the frame timer and the unsigned-to-float cast of the icon bounds.
- SpacedElements.Start: requires a non-zero effective column width. In the source a zero width divides by zero and casts infinity to `int`, which is undefined behaviour. Overflow of that float-to-int cast is not modelled.
- Combo.ToLower: is ASCII lower-casing. Locale-dependent `tolower` and the undefined behaviour of `tolower` on negative `char` values are not modelled. Item texts are the characters before their terminating NUL.
- `items_getter` is modelled as a list of optional texts, with `items_count` as its length. A failing getter is assumed to leave `preview_text` as it was. At most one `Selectable` reports a click per frame.
- `WorldMapToGamePos` only writes x and y, so the caller's z-plane stays as it was; the model returns the x and y pair. `MapID::Count` comes from the game's constants and is a parameter.
- Signed click coordinates from `GET_X_LPARAM`/`GET_Y_LPARAM` are modelled as integers.
- `plugins/ExamplePlugin/ExamplePlugin.cpp` and `GWToolboxdll/Modules/PartyBroadcastModule.h` are left out: the first is chat-command glue and the second is a module shell that only has declarations.

=== FILE: combo.dfy ===
/** The decision logic of MyCombo (GWToolboxdll/ImGuiAddons.cpp): a
    type-ahead word built from typed characters, a first-longest
    case-insensitive prefix match over the items, arrow-key movement of the
    keyboard selection, and commit by Enter or by clicking an item.
    Drawing and scrolling are not modelled. */
module Combo {
  import opened Wrappers

  /** Seconds after which typing starts a new word instead of extending it. */
  const WordBuildingDelay: real := 0.5

  /** Size of the NUL-terminated word buffer (char word[64]). */
  const WordBufferSize: nat := 64

  /** The word held by the buffer: at most 63 characters before the NUL. */
  type Word = w: string | |w| < WordBufferSize

  /** The characters that take part in type-ahead: space, ASCII digits and
      ASCII letters. */
  predicate IsWordChar(c: char)
  {
    c == ' ' || ('0' <= c <= '9') || ('A' <= c <= 'Z') || ('a' <= c <= 'z')
  }

  /** ASCII lower-casing (tolower in the "C" locale). */
  function ToLower(c: char): (l: char)
    ensures 'A' <= c <= 'Z' ==> 'a' <= l <= 'z' && l as int == c as int + 32
    ensures !('A' <= c <= 'Z') ==> l == c
  {
    if 'A' <= c <= 'Z' then (c as int + 32) as char else c
  }

  // ---------------------------------------------------------------------
  // Type-ahead word
  // ---------------------------------------------------------------------

  /** The shared static word buffer and the time since it was last updated. */
  datatype TypeAhead = TypeAhead(word: Word, sinceUpdate: real)

  /** The first `WordBufferSize - 1` characters of a string. */
  function Cap(s: string): (w: Word)
    ensures |w| == if |s| < WordBufferSize then |s| else WordBufferSize - 1
    ensures w == s[..|w|]
  {
    if |s| < WordBufferSize then s else s[..WordBufferSize - 1]
  }

  /** One typed character. A word character is appended when it comes within
      the delay and the buffer has room, and otherwise (after the delay)
      starts a new one-character word; in both cases the timer restarts and a
      new match is requested. Other characters are ignored. */
  function TypeChar(t: TypeAhead, c: char): (r: (TypeAhead, bool))
    ensures !IsWordChar(c) ==> r == (t, false)
    ensures IsWordChar(c) ==> r.1 && r.0.sinceUpdate == 0.0
    ensures IsWordChar(c) && t.sinceUpdate < WordBuildingDelay ==> r.0.word == Cap(t.word + [c])
    ensures IsWordChar(c) && t.sinceUpdate >= WordBuildingDelay ==> r.0.word == [c]
  {
    if !IsWordChar(c) then (t, false)
    else if t.sinceUpdate < WordBuildingDelay then
      var w: Word := if |t.word| + 1 < WordBufferSize then t.word + [c] else t.word;
      (TypeAhead(w, 0.0), true)
    else
      (TypeAhead([c], 0.0), true)
  }

  /** Feeds a sequence of characters one by one; the flag says whether any of
      them asked for a new match. */
  function FeedChars(t: TypeAhead, q: seq<char>): (r: (TypeAhead, bool))
    decreases |q|
  {
    if q == [] then (t, false)
    else
      var (t1, u1) := TypeChar(t, q[0]);
      var (t2, u2) := FeedChars(t1, q[1..]);
      (t2, u1 || u2)
  }

  /** The input queue up to (not including) its first NUL. */
  function UntilNul(q: seq<char>): (r: seq<char>)
    ensures |r| <= |q| && r == q[..|r|]
    ensures forall i :: 0 <= i < |r| ==> r[i] != '\0'
    ensures |r| < |q| ==> q[|r|] == '\0'
  {
    if q == [] || q[0] == '\0' then [] else [q[0]] + UntilNul(q[1..])
  }

  /** The word characters of a sequence, in order. */
  function WordChars(q: seq<char>): (r: string)
    ensures |r| <= |q|
    ensures forall i :: 0 <= i < |r| ==> IsWordChar(r[i])
    ensures |q| == 1 ==> r == (if IsWordChar(q[0]) then q else [])
    ensures (forall i :: 0 <= i < |q| ==> IsWordChar(q[i])) ==> r == q
    ensures (forall i :: 0 <= i < |q| ==> !IsWordChar(q[i])) ==> r == []
  {
    if q == [] then [] else (if IsWordChar(q[0]) then [q[0]] else []) + WordChars(q[1..])
  }

  /** Filtering distributes over concatenation, so together with the
      one-character case it keeps exactly the word characters, in order. */
  lemma {:induction false} WordCharsAppend(a: seq<char>, b: seq<char>)
    ensures WordChars(a + b) == WordChars(a) + WordChars(b)
    decreases |a|
  {
    if a != [] {
      assert (a + b)[1..] == a[1..] + b;
      WordCharsAppend(a[1..], b);
    } else {
      assert a + b == b;
    }
  }

  /** One open frame of the type-ahead: the timer advances by the frame time,
      then the queued characters before the first NUL are fed in. With f the
      word characters among them: without any, only the timer moves; with
      some, the timer restarts, a match is requested, and the word extends
      the old one when the first of them came within the delay and restarts
      otherwise. */
  function TypeAheadFrame(t: TypeAhead, delta: real, queue: seq<char>): (r: (TypeAhead, bool))
    ensures var f := WordChars(UntilNul(queue));
      && (f == [] ==> r == (TypeAhead(t.word, t.sinceUpdate + delta), false))
      && (f != [] ==> r.1 && r.0.sinceUpdate == 0.0)
      && (f != [] ==> r.0.word == if t.sinceUpdate + delta < WordBuildingDelay then Cap(t.word + f) else Cap(f))
  {
    var t0 := TypeAhead(t.word, t.sinceUpdate + delta);
    FeedCharsClosedForm(t0, UntilNul(queue));
    FeedChars(t0, UntilNul(queue))
  }

  lemma CapOfCap(a: string, b: string)
    ensures Cap(Cap(a) + b) == Cap(a + b)
  {
    if |a| >= WordBufferSize {
      assert (a[..WordBufferSize - 1] + b)[..WordBufferSize - 1] == a[..WordBufferSize - 1];
      assert (a + b)[..WordBufferSize - 1] == a[..WordBufferSize - 1];
    } else {
      assert Cap(a) == a;
    }
  }

  /** The type-ahead in closed form. With f the word characters typed: if
      there are none, nothing changes; otherwise the timer is reset, a match
      is requested, and the word is the first 63 characters of the old word
      followed by f when the first of them came within the delay, or of f
      alone when it came later. */
  lemma {:induction false} FeedCharsClosedForm(t: TypeAhead, q: seq<char>)
    ensures var f := WordChars(q);
      var r := FeedChars(t, q);
      (f == [] ==> r == (t, false)) &&
      (f != [] ==> r.1 && r.0.sinceUpdate == 0.0) &&
      (f != [] ==> r.0.word == (if t.sinceUpdate < WordBuildingDelay then Cap(t.word + f) else Cap(f)))
    decreases |q|
  {
    if q != [] {
      var c := q[0];
      var (t1, u1) := TypeChar(t, c);
      var r2 := FeedChars(t1, q[1..]);
      assert FeedChars(t, q) == (r2.0, u1 || r2.1);
      FeedCharsClosedForm(t1, q[1..]);
      var rest := WordChars(q[1..]);
      if IsWordChar(c) {
        assert WordChars(q) == [c] + rest;
        if rest != [] {
          if t.sinceUpdate < WordBuildingDelay {
            CapOfCap(t.word + [c], rest);
            assert t.word + [c] + rest == t.word + ([c] + rest);
          } else {
            CapOfCap([c], rest);
          }
        }
      } else {
        assert WordChars(q) == rest;
        assert t1 == t && !u1;
      }
    }
  }

  // ---------------------------------------------------------------------
  // Keyboard match
  // ---------------------------------------------------------------------

  /** Length of the longest case-insensitive common prefix of the word and
      an item's text. */
  function CommonPrefix(w: string, s: string): (n: nat)
    ensures n <= |w| && n <= |s|
    ensures forall k :: 0 <= k < n ==> ToLower(w[k]) == ToLower(s[k])
    ensures n < |w| && n < |s| ==> ToLower(w[n]) != ToLower(s[n])
  {
    if w == [] || s == [] || ToLower(w[0]) != ToLower(s[0]) then 0
    else 1 + CommonPrefix(w[1..], s[1..])
  }

  /** Index i is the first item with the longest common prefix among the
      items whose getter succeeds (`None` marks a failing getter). */
  ghost predicate FirstLongest(items: seq<Option<string>>, word: string, i: int)
  {
    && 0 <= i < |items|
    && items[i].Some?
    && (forall k :: 0 <= k < |items| && items[k].Some? ==>
          CommonPrefix(word, items[k].value) <= CommonPrefix(word, items[i].value))
    && (forall k :: 0 <= k < i && items[k].Some? ==>
          CommonPrefix(word, items[k].value) < CommonPrefix(word, items[i].value))
  }

  /** The match loop after its first `n` items: the best prefix length so
      far (-1 before any readable item) and the keyboard selection. An item
      replaces the selection only when it is strictly better. */
  function MatchScan(items: seq<Option<string>>, word: string, n: nat, selected: int): (r: (int, int))
    requires n <= |items|
    ensures r.0 >= -1
    ensures r.0 == -1 <==> forall k :: 0 <= k < n ==> items[k].None?
    ensures r.0 == -1 ==> r.1 == selected
    ensures r.0 >= 0 ==>
      && 0 <= r.1 < n
      && items[r.1].Some?
      && CommonPrefix(word, items[r.1].value) == r.0
      && (forall k :: 0 <= k < n && items[k].Some? ==> CommonPrefix(word, items[k].value) <= r.0)
      && (forall k :: 0 <= k < r.1 && items[k].Some? ==> CommonPrefix(word, items[k].value) < r.0)
  {
    if n == 0 then (-1, selected)
    else
      var (best, sel) := MatchScan(items, word, n - 1, selected);
      match items[n - 1]
      case Some(text) =>
        var j := CommonPrefix(word, text);
        if best < j then (j, n - 1) else (best, sel)
      case None => (best, sel)
  }

  /** The keyboard selection after a match over all items. */
  function KeyboardMatch(items: seq<Option<string>>, word: string, selected: int): (r: int)
    ensures (exists k :: 0 <= k < |items| && items[k].Some?) ==> FirstLongest(items, word, r)
    ensures (forall k :: 0 <= k < |items| ==> items[k].None?) ==> r == selected
  {
    MatchScan(items, word, |items|, selected).1
  }

  /** There is at most one first-longest item, so the match is determined. */
  lemma FirstLongestUnique(items: seq<Option<string>>, word: string, i: int, j: int)
    requires FirstLongest(items, word, i) && FirstLongest(items, word, j)
    ensures i == j
  {
  }

  // ---------------------------------------------------------------------
  // Keys, clicks and the whole frame
  // ---------------------------------------------------------------------

  /** The arrow keys: Up moves the selection up only from above 0, Down moves
      it down only from below the last index; both are applied, Up first. */
  function Navigate(selected: int, up: bool, down: bool, count: int): (r: int)
    ensures -1 <= selected < count ==> -1 <= r < count
    ensures !up && !down ==> r == selected
    ensures up && !down ==> r == if selected > 0 then selected - 1 else selected
    ensures down && !up ==> r == if selected < count - 1 then selected + 1 else selected
    ensures !down ==> r <= selected
    ensures !up ==> r >= selected
    // Both pressed: Up is applied first, then Down from where Up left it.
    ensures up && down && 0 < selected < count ==> r == selected
    ensures up && down && selected <= 0 ==> r == if selected < count - 1 then selected + 1 else selected
    ensures up && down && selected >= count && selected > 0 ==> r == selected - 1
  {
    var afterUp := if up && selected > 0 then selected - 1 else selected;
    if down && afterUp < count - 1 then afterUp + 1 else afterUp
  }

  /** Pressing both arrows in one frame is Up followed by Down. */
  lemma NavigateUpThenDown(selected: int, count: int)
    ensures Navigate(selected, true, true, count) == Navigate(Navigate(selected, true, false, count), false, true, count)
  {
  }

  /** The statics shared by every combo: the keyboard selection (-1 when
      none) and the type-ahead buffer. */
  datatype ComboState = ComboState(keyboardSelected: int, typeAhead: TypeAhead)

  /** The host inputs of one frame: whether the combo popup is open, the
      frame time, the queued characters, the pressed keys, and the index of
      the item whose Selectable reported a click, if any. */
  datatype FrameInput = FrameInput(
    open: bool, delta: real, chars: seq<char>,
    enter: bool, up: bool, down: bool, clicked: Option<int>)

  /** The new statics, the caller's current item, and the return value. */
  datatype FrameResult = FrameResult(state: ComboState, currentItem: int, changed: bool)

  /** The text shown in the closed combo: the current item's text when it is
      in range and readable, and the supplied preview otherwise. */
  function PreviewText(items: seq<Option<string>>, current: int, preview: string): (r: string)
  {
    if 0 <= current < |items| && items[current].Some? then items[current].value else preview
  }

  /** The selection after typing in one open frame, before any key is read. */
  function SelectionAfterTyping(st: ComboState, input: FrameInput, items: seq<Option<string>>): (r: (TypeAhead, int))
    ensures WordChars(UntilNul(input.chars)) == [] ==> r.1 == st.keyboardSelected
    ensures WordChars(UntilNul(input.chars)) != [] && (exists k :: 0 <= k < |items| && items[k].Some?) ==>
      FirstLongest(items, r.0.word, r.1)
    ensures WordChars(UntilNul(input.chars)) != [] && (forall k :: 0 <= k < |items| ==> items[k].None?) ==>
      r.1 == st.keyboardSelected
    ensures -1 <= st.keyboardSelected < |items| ==> -1 <= r.1 < |items|
    // The match uses the word the frame's typing produced.
    ensures r.0 == TypeAheadFrame(st.typeAhead, input.delta, input.chars).0
  {
    var (ta, update) := TypeAheadFrame(st.typeAhead, input.delta, input.chars);
    (ta, if update then KeyboardMatch(items, ta.word, st.keyboardSelected) else st.keyboardSelected)
  }

  /** One frame of MyCombo. */
  function ComboFrame(st: ComboState, input: FrameInput, items: seq<Option<string>>, current: int): (r: FrameResult)
    ensures !input.open ==> r == FrameResult(st, current, false)
  {
    if !input.open then FrameResult(st, current, false)
    else
      var (ta, sel) := SelectionAfterTyping(st, input, items);
      if input.enter && sel >= 0 then
        FrameResult(ComboState(-1, ta), sel, true)
      else
        var moved := Navigate(sel, input.up, input.down, |items|);
        if input.clicked.Some? && 0 <= input.clicked.value < |items| then
          FrameResult(ComboState(-1, ta), input.clicked.value, true)
        else
          FrameResult(ComboState(moved, ta), current, false)
  }

  /** Enter with a selection commits it, clears the selection and reports a
      change; a click on an item does the same for that item; nothing else
      changes the current item or reports a change. */
  lemma CommitRules(st: ComboState, input: FrameInput, items: seq<Option<string>>, current: int)
    ensures var r := ComboFrame(st, input, items, current);
      var sel := SelectionAfterTyping(st, input, items).1;
      && (input.open && input.enter && sel >= 0 ==>
            r.currentItem == sel && r.state.keyboardSelected == -1 && r.changed)
      && (input.open && !(input.enter && sel >= 0) && input.clicked.Some? && 0 <= input.clicked.value < |items| ==>
            r.currentItem == input.clicked.value && r.state.keyboardSelected == -1 && r.changed)
      && (r.changed <==> input.open && ((input.enter && sel >= 0) || (input.clicked.Some? && 0 <= input.clicked.value < |items|)))
      && (!r.changed ==> r.currentItem == current)
      && (input.open ==> r.state.typeAhead == SelectionAfterTyping(st, input, items).0)
      && (input.open && !r.changed ==> r.state.keyboardSelected == Navigate(sel, input.up, input.down, |items|))
  {
  }

  /** With a keyboard selection in [-1, count-1] to start with, the
      selection stays in that range, and a committed item is a valid index. */
  lemma {:induction false} SelectionStaysInRange(st: ComboState, input: FrameInput, items: seq<Option<string>>, current: int)
    requires -1 <= st.keyboardSelected < |items|
    ensures var r := ComboFrame(st, input, items, current);
      && -1 <= r.state.keyboardSelected < |items|
      && (r.changed ==> 0 <= r.currentItem < |items|)
  {
  }

  /** The selection is shared by all combos, so one left over from a longer
      list can be committed by Enter in a shorter one: the committed index is
      then outside the shorter list. */
  lemma StaleSelectionCommitted(items: seq<Option<string>>, t: TypeAhead, current: int, ks: int)
    requires ks >= |items|
    ensures var input := FrameInput(true, 0.0, [], true, false, false, None);
      var r := ComboFrame(ComboState(ks, t), input, items, current);
      && r.changed && r.currentItem == ks
      && !(0 <= r.currentItem < |items|)
  {
  }

  /** The preview shown next to the closed combo follows the frame's commit:
      after a click on a readable item (without Enter) it is that item's
      text; after a stale Enter commit it falls back to the caller's preview. */
  lemma PreviewAfterCommit(items: seq<Option<string>>, st: ComboState, input: FrameInput, current: int, p: string, t: TypeAhead, ks: int)
    ensures input.open && !input.enter && input.clicked.Some? && 0 <= input.clicked.value < |items| &&
            items[input.clicked.value].Some? ==>
      var r := ComboFrame(st, input, items, current);
      r.changed && PreviewText(items, r.currentItem, p) == items[input.clicked.value].value
    ensures ks >= |items| ==>
      var r := ComboFrame(ComboState(ks, t), FrameInput(true, 0.0, [], true, false, false, None), items, current);
      r.changed && PreviewText(items, r.currentItem, p) == p
  {
  }
}

=== FILE: geometry.dfy ===
/** Plain geometric values shared by the pathing, ImGui and world-map models.
    Single-precision floats are modelled as mathematical reals. */
module Geometry {

  /** A 2D vector (GW::Vec2f / ImVec2). */
  datatype Vec2 = Vec2(x: real, y: real)

  /** A game position: planar coordinates plus the unsigned z-plane (layer). */
  datatype GamePos = GamePos(x: real, y: real, zplane: nat)

  /** An axis-aligned rectangle given by its minimum and maximum corners (ImRect). */
  datatype Rect = Rect(min: Vec2, max: Vec2)

  /** The all-zero rectangle that `memset` leaves behind. */
  const ZeroRect: Rect := Rect(Vec2(0.0, 0.0), Vec2(0.0, 0.0))

  /** ImRect::Contains for a point: closed at the minimum corner, open at the maximum one. */
  predicate Contains(r: Rect, p: Vec2)
  {
    r.min.x <= p.x && r.min.y <= p.y && p.x < r.max.x && p.y < r.max.y
  }

  function Abs(r: real): (a: real)
    ensures a >= 0.0
    ensures a == r || a == -r
  {
    if r < 0.0 then -r else r
  }

  /** A cleared rectangle can never be hit, so a control that was not drawn
      this frame never receives a click. */
  lemma ZeroRectContainsNothing(p: Vec2)
    ensures !Contains(ZeroRect, p)
  {
  }
}

=== FILE: pathing.dfy ===
/** The concrete, fully visible part of the pathfinding subsystem: the search
    error enumeration, the graph-point to game-position projection, the
    build-progress predicate and the lifecycle of a search result path
    (GWToolboxdll/Windows/Pathfinding/Pathing.h). */
module Pathing {
  import opened Wrappers
  import opened Geometry

  // ---------------------------------------------------------------------
  // Error enumeration
  // ---------------------------------------------------------------------

  /** The closed set of search outcomes. The declaration order fixes each
      enumerator's underlying uint32 value, starting at zero. */
  datatype Error =
    | OK
    | Unknown
    | FailedToFindGoalBox
    | FailedToFindStartBox
    | FailedToFinializePath
    | InvalidMapContext
    | BuildPathLengthExceeded
    | FailedToGetPathingMapBlock

  /** Number of enumerators. */
  const ErrorCount: nat := 8

  /** The underlying value of an enumerator. */
  function ErrorCode(e: Error): (c: nat)
    ensures c < ErrorCount
    ensures c == 0 <==> e == OK
  {
    match e
    case OK => 0
    case Unknown => 1
    case FailedToFindGoalBox => 2
    case FailedToFindStartBox => 3
    case FailedToFinializePath => 4
    case InvalidMapContext => 5
    case BuildPathLengthExceeded => 6
    case FailedToGetPathingMapBlock => 7
  }

  /** Reads an underlying value back as an enumerator, if it names one. */
  function ErrorFromCode(c: nat): (r: Option<Error>)
    ensures r.Some? <==> c < ErrorCount
  {
    if c == 0 then Some(OK)
    else if c == 1 then Some(Unknown)
    else if c == 2 then Some(FailedToFindGoalBox)
    else if c == 3 then Some(FailedToFindStartBox)
    else if c == 4 then Some(FailedToFinializePath)
    else if c == 5 then Some(InvalidMapContext)
    else if c == 6 then Some(BuildPathLengthExceeded)
    else if c == 7 then Some(FailedToGetPathingMapBlock)
    else None
  }

  lemma ErrorCodeRoundTrip(e: Error)
    ensures ErrorFromCode(ErrorCode(e)) == Some(e)
  {
  }

  lemma CodeErrorRoundTrip(c: nat)
    requires c < ErrorCount
    ensures ErrorFromCode(c).Some? && ErrorCode(ErrorFromCode(c).value) == c
  {
  }

  /** Every enumerator has its own value: the mapping to codes is injective,
      so the eight outcomes are eight distinct values. */
  lemma ErrorCodesDistinct(e1: Error, e2: Error)
    ensures ErrorCode(e1) == ErrorCode(e2) <==> e1 == e2
  {
    ErrorCodeRoundTrip(e1);
    ErrorCodeRoundTrip(e2);
  }

  // ---------------------------------------------------------------------
  // Graph entities
  // ---------------------------------------------------------------------

  /** A pathing trapezoid with its id, layer and four corners. */
  datatype SimplePT = SimplePT(id: nat, layer: nat, a: Vec2, b: Vec2, c: Vec2, d: Vec2)

  /** A bounding box around one trapezoid; `t` is the back-reference to the
      trapezoid, `None` when the pointer is null. */
  datatype AABB = AABB(id: nat, pos: Vec2, half: Vec2, t: Option<SimplePT>)

  /** A crossing segment between two adjacent boxes. */
  datatype Portal = Portal(start: Vec2, goal: Vec2, box1: Option<AABB>, box2: Option<AABB>)

  /** A vertex of the visibility graph. Absent boxes and portal are `None`. */
  datatype Point = Point(id: int, pos: Vec2, box: Option<AABB>, box2: Option<AABB>, portal: Option<Portal>)

  /** The layer of the trapezoid that owns a point, when the point has a
      box and that box has a trapezoid. */
  function OwningLayer(p: Point): (l: Option<nat>)
    ensures l.Some? <==> p.box.Some? && p.box.value.t.Some?
    ensures l.Some? ==> l.value == p.box.value.t.value.layer
  {
    match p.box
    case None => None
    case Some(bx) =>
      match bx.t
      case None => None
      case Some(t) => Some(t.layer)
  }

  /** The conversion of a graph point to a game position: x and y are kept,
      the z-plane is the owning trapezoid's layer, or 0 when the point has no
      box or its box has no trapezoid. */
  function ToGamePos(p: Point): (g: GamePos)
    ensures g.x == p.pos.x && g.y == p.pos.y
    ensures p.box.None? ==> g.zplane == 0
    ensures p.box.Some? && p.box.value.t.None? ==> g.zplane == 0
    ensures p.box.Some? && p.box.value.t.Some? ==> g.zplane == p.box.value.t.value.layer
  {
    GamePos(p.pos.x, p.pos.y, match OwningLayer(p) case Some(l) => l case None => 0)
  }

  /** The projection looks only at the position and the first box: the id,
      the second box and the portal never influence the game position. */
  lemma ToGamePosIgnoresMetadata(p: Point, q: Point)
    requires p.pos == q.pos
    requires OwningLayer(p) == OwningLayer(q)
    ensures ToGamePos(p) == ToGamePos(q)
  {
  }

  /** The z-plane does not tell an ownerless point (no box, or a box
      without a trapezoid) from one on a layer-0 trapezoid: both project to
      plane 0, so the projection is not injective in the owner. */
  lemma OwnerlessLooksLikeLayerZero(p: Point, q: Point)
    requires p.pos == q.pos
    requires OwningLayer(p).None? && OwningLayer(q) == Some(0)
    ensures OwningLayer(p) != OwningLayer(q)
    ensures ToGamePos(p) == ToGamePos(q)
  {
  }

  // ---------------------------------------------------------------------
  // Graph build progress
  // ---------------------------------------------------------------------

  /** The observable build status of a map's graph: the percentage reported
      by progress(). */
  datatype BuildStatus = BuildStatus(progress: int)

  /** ready(): a graph may be searched once its build has reached 100 percent. */
  function IsReady(m: BuildStatus): (r: bool)
    ensures 0 <= m.progress <= 100 ==> (r <==> m.progress == 100)
    ensures m.progress > 100 ==> r
    ensures m.progress < 0 ==> !r
  {
    m.progress >= 100
  }

  /** Readiness is upward-closed in the progress value: as progress only
      advances, a ready graph stays ready. */
  lemma ReadyStaysReady(m: BuildStatus, m': BuildStatus)
    requires m.progress <= m'.progress
    ensures IsReady(m) ==> IsReady(m')
  {
  }

  // ---------------------------------------------------------------------
  // Search result path
  // ---------------------------------------------------------------------

  /** A search result: waypoints, accumulated cost, and whether finalize()
      has already run. */
  datatype Path = Path(points: seq<Point>, cost: real, finalized: bool)

  /** The sequence in reverse order, defined element by element. */
  function Reverse<T>(s: seq<T>): (r: seq<T>)
    ensures |r| == |s|
    ensures forall i :: 0 <= i < |s| ==> r[i] == s[|s| - 1 - i]
  {
    if s == [] then [] else Reverse(s[1..]) + [s[0]]
  }

  lemma ReverseInvolution<T>(s: seq<T>)
    ensures Reverse(Reverse(s)) == s
  {
  }

  /** A path as constructed: no points, cost 0, not ready. */
  function NewPath(): (p: Path)
    ensures p.points == [] && p.cost == 0.0
    ensures !PathReady(p)
  {
    Path([], 0.0, false)
  }

  /** ready(): the path has been finalized. */
  predicate PathReady(p: Path)
  {
    p.finalized
  }

  /** insertPoint(): appends exactly one point at the end; cost and
      readiness are untouched. */
  function InsertPoint(p: Path, pt: Point): (r: Path)
    ensures |r.points| == |p.points| + 1
    ensures r.points[..|p.points|] == p.points && r.points[|p.points|] == pt
    ensures r.cost == p.cost
    ensures PathReady(r) == PathReady(p)
  {
    p.(points := p.points + [pt])
  }

  /** setCost(). */
  function SetCost(p: Path, cost: real): (r: Path)
    ensures r.cost == cost
    ensures r.points == p.points && PathReady(r) == PathReady(p)
  {
    p.(cost := cost)
  }

  /** clear(): drops the points and the ready flag but keeps the cost. */
  function Clear(p: Path): (r: Path)
    ensures r.points == [] && !PathReady(r)
    ensures r.cost == p.cost
  {
    p.(points := [], finalized := false)
  }

  /** finalize(): the first call reverses the points into the opposite of
      insertion order; every call leaves the path ready. */
  function Finalize(p: Path): (r: Path)
    ensures PathReady(r)
    ensures r.cost == p.cost
    ensures |r.points| == |p.points|
    ensures !PathReady(p) ==> forall i :: 0 <= i < |p.points| ==> r.points[i] == p.points[|p.points| - 1 - i]
    ensures PathReady(p) ==> r.points == p.points
  {
    if p.finalized then p else Path(Reverse(p.points), p.cost, true)
  }

  /** finalize() as the in-place two-pointer swap of std::ranges::reverse. */
  method FinalizeInPlace(p: Path) returns (r: Path)
    ensures r == Finalize(p)
  {
    if p.finalized {
      return p;
    }
    var a := p.points;
    var n := |a|;
    var i := 0;
    while i < n / 2
      invariant 0 <= i <= n / 2
      invariant |a| == n
      invariant forall k :: 0 <= k < i ==> a[k] == p.points[n - 1 - k] && a[n - 1 - k] == p.points[k]
      invariant forall k :: i <= k < n - i ==> a[k] == p.points[k]
    {
      var tmp := a[i];
      a := a[i := a[n - 1 - i]][n - 1 - i := tmp];
      i := i + 1;
    }
    r := Path(a, p.cost, true);
  }

  /** ready() over the lifecycle: a path is ready exactly when finalize()
      would leave it as it is; only finalize() makes it ready, only clear()
      (or construction) makes it unready, and insertPoint() and setCost()
      keep the flag. */
  lemma ReadyLifecycle(p: Path, pt: Point, cost: real)
    ensures PathReady(p) <==> Finalize(p) == p
    ensures PathReady(Finalize(p)) && !PathReady(Clear(p)) && !PathReady(NewPath())
    ensures PathReady(InsertPoint(p, pt)) == PathReady(p)
    ensures PathReady(SetCost(p, cost)) == PathReady(p)
  {
  }

  /** Inserts a whole sequence of points, one insertPoint() at a time. */
  function InsertAll(p: Path, pts: seq<Point>): (r: Path)
    decreases |pts|
  {
    if pts == [] then p else InsertAll(InsertPoint(p, pts[0]), pts[1..])
  }

  lemma {:induction false} InsertAllAppends(p: Path, pts: seq<Point>)
    ensures InsertAll(p, pts).points == p.points + pts
    ensures InsertAll(p, pts).cost == p.cost
    ensures InsertAll(p, pts).finalized == p.finalized
    decreases |pts|
  {
    if pts != [] {
      InsertAllAppends(InsertPoint(p, pts[0]), pts[1..]);
      assert p.points + [pts[0]] + pts[1..] == p.points + pts;
    }
  }

  /** finalize() is idempotent: a second call does not reverse again. */
  lemma FinalizeIdempotent(p: Path)
    ensures Finalize(Finalize(p)) == Finalize(p)
  {
  }

  /** Inserting a route from goal back to start into a fresh path and then
      finalizing yields the route in start-to-goal order, with cost 0 until
      setCost() is called. */
  lemma {:induction false} FinalizeRestoresRouteOrder(route: seq<Point>)
    ensures Finalize(InsertAll(NewPath(), Reverse(route))).points == route
    ensures PathReady(Finalize(InsertAll(NewPath(), Reverse(route))))
    ensures Finalize(InsertAll(NewPath(), Reverse(route))).cost == 0.0
  {
    InsertAllAppends(NewPath(), Reverse(route));
    assert [] + Reverse(route) == Reverse(route);
    ReverseInvolution(route);
  }

  /** clear() re-arms the path: after it, a new round of insertions is
      reversed again by the next finalize(), and the old cost survives. */
  lemma {:induction false} ClearRearmsFinalize(p: Path, pts: seq<Point>)
    ensures Finalize(InsertAll(Clear(p), pts)).points == Reverse(pts)
    ensures Finalize(InsertAll(Clear(p), pts)).cost == p.cost
  {
    InsertAllAppends(Clear(p), pts);
    assert [] + pts == pts;
  }

  /** Points inserted after finalize() are appended and never reversed,
      because the path stays finalized. */
  lemma {:induction false} InsertAfterFinalizeKeepsOrder(p: Path, pts: seq<Point>)
    ensures Finalize(InsertAll(Finalize(p), pts)).points == Finalize(p).points + pts
  {
    InsertAllAppends(Finalize(p), pts);
  }
}

=== FILE: spaced_elements.dfy ===
/** The column counter behind StartSpacedElements / NextSpacedElement
    (GWToolboxdll/ImGuiAddons.cpp): elements are laid out left to right in
    fixed-width columns and wrap to a new row once the columns are used up. */
module SpacedElements {

  /** The counter's state (element_spacing_width, element_spacing_cols and
      element_spacing_col_idx). The indent is read through a pointer on every
      call, so it is passed to `Next` rather than stored. */
  datatype Spacing = Spacing(width: real, cols: int, colIdx: int)

  /** Where the next element goes: on the current line at a horizontal
      offset (SameLine), or on a fresh row. */
  datatype Placement = NewRow | SameLine(offset: real)

  /** The effective column count used by the wrap rule: at least one. */
  function Columns(s: Spacing): (c: int)
    ensures c >= 1 && c >= s.cols
    ensures c == s.cols || c == 1
  {
    if s.cols < 1 then 1 else s.cols
  }

  /** StartSpacedElements: the column width (scaled by the font scale when
      requested), the number of whole columns that fit in the available
      width, and a counter reset to 0. */
  function Start(width: real, includeFontScaling: bool, fontScale: real, availWidth: real): (s: Spacing)
    requires (if includeFontScaling then width * fontScale else width) != 0.0
    ensures s.colIdx == 0
    ensures s.width == if includeFontScaling then width * fontScale else width
    ensures s.cols as real <= availWidth / s.width < s.cols as real + 1.0
  {
    var w := if includeFontScaling then width * fontScale else width;
    Spacing(w, (availWidth / w).Floor, 0)
  }

  /** NextSpacedElement: an element after the first of a row is put on the
      same line one column further; once the row is full the counter wraps. */
  function Next(s: Spacing, indent: real): (r: (Spacing, Placement))
    ensures r.0.width == s.width && r.0.cols == s.cols
    ensures r.1.SameLine? <==> s.colIdx != 0 && s.colIdx < s.cols
    ensures r.1.SameLine? ==> r.1.offset == s.width * s.colIdx as real + indent && r.0.colIdx == s.colIdx + 1
    ensures r.1.NewRow? ==> r.0.colIdx == 1
    ensures s.colIdx >= 0 ==> 1 <= r.0.colIdx <= Columns(s)
  {
    if s.colIdx != 0 && s.colIdx < s.cols then
      (s.(colIdx := s.colIdx + 1), SameLine(s.width * s.colIdx as real + indent))
    else
      (s.(colIdx := 1), NewRow)
  }

  /** The state after `n` calls to NextSpacedElement with a fixed indent. */
  function After(s: Spacing, indent: real, n: nat): (r: Spacing)
  {
    if n == 0 then s else Next(After(s, indent, n - 1), indent).0
  }

  /** The placements requested by those `n` calls, in call order. */
  function Placements(s: Spacing, indent: real, n: nat): (ps: seq<Placement>)
    ensures |ps| == n
  {
    if n == 0 then [] else Placements(s, indent, n - 1) + [Next(After(s, indent, n - 1), indent).1]
  }

  /** A non-zero multiple of a positive number is at least that number away from 0. */
  lemma MultipleBounds(d: int, c: int)
    requires c >= 1
    ensures d >= 1 ==> d * c >= c
    ensures d <= -1 ==> d * c <= -c
  {
    if d >= 1 {
      assert d * c == c + (d - 1) * c;
    } else if d <= -1 {
      assert d * c == -c + (d + 1) * c;
    }
  }

  /** Quotient and remainder are unique. */
  lemma DivModUnique(a: int, c: int, q: int, r: int)
    requires c >= 1 && 0 <= r < c && a == q * c + r
    ensures a / c == q && a % c == r
  {
    var q0 := a / c;
    var r0 := a % c;
    assert a == q0 * c + r0;
    assert (q - q0) * c == q * c - q0 * c;
    MultipleBounds(q - q0, c);
  }

  /** Successor arithmetic modulo a positive number. */
  lemma ModSucc(m: nat, c: int)
    requires c >= 1
    ensures (m + 1) % c == if m % c + 1 < c then m % c + 1 else 0
  {
    var q := m / c;
    var r := m % c;
    assert m == q * c + r;
    if r + 1 < c {
      DivModUnique(m + 1, c, q, r + 1);
    } else {
      assert (q + 1) * c == q * c + c;
      DivModUnique(m + 1, c, q + 1, 0);
    }
  }

  /** One call on a counter that holds a 1-based column in [1, C]. */
  lemma NextFromColumn(prev: Spacing, indent: real)
    requires 1 <= prev.colIdx <= Columns(prev)
    ensures Next(prev, indent).0.colIdx == if prev.colIdx < Columns(prev) then prev.colIdx + 1 else 1
  {
  }

  /** One step of the closed form below. */
  lemma CounterStep(s: Spacing, indent: real, m: nat)
    requires After(s, indent, m + 1).colIdx == m % Columns(s) + 1
    requires After(s, indent, m + 1).cols == s.cols
    ensures After(s, indent, m + 2).colIdx == (m + 1) % Columns(s) + 1
  {
    var prev := After(s, indent, m + 1);
    NextFromColumn(prev, indent);
    ModSucc(m, Columns(s));
  }

  /** The counter in closed form: starting from a freshly reset counter, it
      holds the 1-based column of the last placed element. */
  lemma {:induction false} CounterAfter(s: Spacing, indent: real, n: nat)
    requires s.colIdx == 0
    ensures After(s, indent, n).colIdx == if n == 0 then 0 else (n - 1) % Columns(s) + 1
  {
    if n == 1 {
      assert After(s, indent, 1) == Next(s, indent).0;
      DivModUnique(0, Columns(s), 0, 0);
    } else if n >= 2 {
      CounterAfter(s, indent, n - 1);
      SameShape(s, indent, n - 1);
      CounterStep(s, indent, n - 2);
    }
  }

  /** The placement of the k-th element (counting from 0) after a reset. */
  lemma PlacementOf(s: Spacing, indent: real, k: nat)
    requires s.colIdx == 0
    ensures Next(After(s, indent, k), indent).1 ==
      if k % Columns(s) == 0 then NewRow
      else SameLine(s.width * (k % Columns(s)) as real + indent)
  {
    var prev := After(s, indent, k);
    var c := Columns(s);
    CounterAfter(s, indent, k);
    SameShape(s, indent, k);
    if k == 0 {
      assert prev.colIdx == 0;
      DivModUnique(0, c, 0, 0);
    } else {
      var col := (k - 1) % c;
      assert prev.colIdx == col + 1;
      ModSucc(k - 1, c);
      if col + 1 < c {
        assert k % c == col + 1;
        assert prev.colIdx < prev.cols;
      } else {
        assert k % c == 0;
        assert !(prev.colIdx < prev.cols);
      }
    }
  }

  /** Each placement in the sequence is the one requested by that call. */
  lemma {:induction false} PlacementsIndex(s: Spacing, indent: real, n: nat, k: nat)
    requires k < n
    ensures Placements(s, indent, n)[k] == Next(After(s, indent, k), indent).1
  {
    if k < n - 1 {
      PlacementsIndex(s, indent, n - 1, k);
    }
  }

  /** The layout rule in closed form: after a reset, the k-th element lands
      in column k mod C, where C is the effective column count, and it is put
      on the same line exactly when that column is not the first. */
  lemma ColumnLayout(s: Spacing, indent: real, n: nat)
    requires s.colIdx == 0
    ensures forall k :: 0 <= k < n ==>
      Placements(s, indent, n)[k] ==
        if k % Columns(s) == 0 then NewRow
        else SameLine(s.width * (k % Columns(s)) as real + indent)
  {
    forall k | 0 <= k < n
      ensures Placements(s, indent, n)[k] ==
        if k % Columns(s) == 0 then NewRow
        else SameLine(s.width * (k % Columns(s)) as real + indent)
    {
      PlacementsIndex(s, indent, n, k);
      PlacementOf(s, indent, k);
    }
  }

  /** Width and column count never change between Start calls. */
  lemma {:induction false} SameShape(s: Spacing, indent: real, n: nat)
    ensures After(s, indent, n).width == s.width && After(s, indent, n).cols == s.cols
  {
    if n > 0 {
      SameShape(s, indent, n - 1);
    }
  }
}

=== FILE: window_clamp.dfy ===
/** Keeping windows on screen (ClampWindowToScreen / ClampAllWindowsToScreen,
    GWToolboxdll/ImGuiAddons.cpp). A window that would stick out past the
    right or bottom edge of the display is pushed back, its original position
    is remembered by window name, and it is put back there once it fits
    again or when clamping is switched off. */
module WindowClamp {
  import opened Wrappers
  import opened Geometry

  /** The parts of an ImGui window the rule reads. */
  datatype Window = Window(name: string, pos: Vec2, size: Vec2, collapsed: bool)

  /** The remembered original positions, by window name. */
  type Saved = map<string, Vec2>

  /** The updated memory and the position the window is set to, if any. */
  datatype ClampResult = ClampResult(saved: Saved, moveTo: Option<Vec2>)

  /** The position clamping is judged by: the remembered one if there is one. */
  function OriginalPos(saved: Saved, w: Window): (r: Vec2)
    ensures w.name in saved ==> r == saved[w.name]
    ensures w.name !in saved ==> r == w.pos
  {
    if w.name in saved then saved[w.name] else w.pos
  }

  /** The window's far edge lies past the display on some axis. */
  predicate Overflows(pos: Vec2, size: Vec2, display: Vec2)
  {
    pos.x + size.x > display.x || pos.y + size.y > display.y
  }

  /** The window's far edges lie within the display on both axes. */
  predicate FitsFarEdges(pos: Vec2, size: Vec2, display: Vec2)
  {
    pos.x + size.x <= display.x && pos.y + size.y <= display.y
  }


  /** One coordinate pulled back so that its far edge is at the limit. */
  function ClampAxis(pos: real, size: real, limit: real): (r: real)
    ensures r + size <= limit
    ensures pos + size > limit ==> r + size == limit
    ensures pos + size <= limit ==> r == pos
  {
    if pos + size > limit then limit - size else pos
  }

  /** Clamping moves a window no further than it must: among the
      coordinates at or before the current one whose far edge fits, the
      clamped coordinate is the largest. */
  lemma ClampAxisMovesLeast(pos: real, size: real, limit: real, other: real)
    requires other <= pos && other + size <= limit
    ensures other <= ClampAxis(pos, size, limit) <= pos
  {
  }

  /** ClampWindowToScreen for one window; `moving` is whether the user is
      dragging a window (mouse captured and left button down). */
  function ClampWindow(saved: Saved, w: Window, display: Vec2, moving: bool): (r: ClampResult)
    // Entries of other windows are never touched.
    ensures forall n :: n != w.name ==> (n in r.saved <==> n in saved)
    ensures forall n :: n != w.name && n in saved ==> r.saved[n] == saved[n]
    // Clamping: the far edges end inside the display, exactly on it where
    // they stuck out, and the original position is remembered.
    ensures Overflows(OriginalPos(saved, w), w.size, display) ==>
      && r.moveTo.Some?
      && FitsFarEdges(r.moveTo.value, w.size, display)
      && (w.pos.x + w.size.x > display.x ==> r.moveTo.value.x + w.size.x == display.x)
      && (w.pos.x + w.size.x <= display.x ==> r.moveTo.value.x == w.pos.x)
      && (w.pos.y + w.size.y > display.y ==> r.moveTo.value.y + w.size.y == display.y)
      && (w.pos.y + w.size.y <= display.y ==> r.moveTo.value.y == w.pos.y)
      && w.name in r.saved
      && r.saved[w.name] == (if w.collapsed then r.moveTo.value else OriginalPos(saved, w))
    // Restoring: once the original fits and no window is being dragged, a
    // moved window goes back to its original position and is forgotten.
    ensures !Overflows(OriginalPos(saved, w), w.size, display) && !moving && w.name in saved && saved[w.name] != w.pos ==>
      r.moveTo == Some(saved[w.name]) && w.name !in r.saved
    // Otherwise nothing happens.
    ensures !Overflows(OriginalPos(saved, w), w.size, display) && (moving || w.name !in saved || saved[w.name] == w.pos) ==>
      r == ClampResult(saved, None)
  {
    var original := OriginalPos(saved, w);
    if Overflows(original, w.size, display) then
      var kept := if w.name in saved then saved else saved[w.name := w.pos];
      var p := Vec2(ClampAxis(w.pos.x, w.size.x, display.x), ClampAxis(w.pos.y, w.size.y, display.y));
      ClampResult(if w.collapsed then kept[w.name := p] else kept, Some(p))
    else if !moving && w.name in saved then
      if w.pos != saved[w.name] then
        ClampResult(saved - {w.name}, Some(original))
      else
        ClampResult(saved[w.name := w.pos], None)
    else
      ClampResult(saved, None)
  }

  /** Clamping then restoring is a round trip: a window that sticks out is
      pulled in, and once the display is large enough again (nobody dragging,
      window not moved meanwhile) it returns to where it was and the memory
      is as before. */
  lemma ClampThenRestore(saved: Saved, w: Window, small: Vec2, large: Vec2)
    requires w.name !in saved && !w.collapsed
    requires Overflows(w.pos, w.size, small)
    requires FitsFarEdges(w.pos, w.size, large)
    ensures var r1 := ClampWindow(saved, w, small, false);
      && r1.moveTo.Some?
      && var r2 := ClampWindow(r1.saved, w.(pos := r1.moveTo.value), large, false);
      && r2.moveTo == Some(w.pos)
      && r2.saved == saved
  {
    var r1 := ClampWindow(saved, w, small, false);
    assert r1.saved == saved[w.name := w.pos];
    assert r1.moveTo.value != w.pos;
    assert r1.saved - {w.name} == saved;
  }

  /** The clamp decision stays with the original position: after a window
      that is not collapsed is clamped, the next frame judges it by the same
      original position, so it is clamped again for as long as the display
      stays too small and is not restored while it is being judged. */
  lemma ClampKeepsOriginal(saved: Saved, w: Window, display: Vec2, moving: bool)
    requires !w.collapsed && Overflows(OriginalPos(saved, w), w.size, display)
    ensures var r := ClampWindow(saved, w, display, moving);
      && OriginalPos(r.saved, w.(pos := r.moveTo.value)) == OriginalPos(saved, w)
      && ClampWindow(r.saved, w.(pos := r.moveTo.value), display, moving).moveTo == r.moveTo
  {
  }

  /** The result for one window depends on the memory only through that
      window's own entry. */
  lemma ClampWindowIsLocal(s1: Saved, s2: Saved, w: Window, display: Vec2, moving: bool)
    requires w.name in s1 <==> w.name in s2
    requires w.name in s1 ==> s1[w.name] == s2[w.name]
    ensures ClampWindow(s1, w, display, moving).moveTo == ClampWindow(s2, w, display, moving).moveTo
    ensures var r1 := ClampWindow(s1, w, display, moving).saved;
      var r2 := ClampWindow(s2, w, display, moving).saved;
      (w.name in r1 <==> w.name in r2) && (w.name in r1 ==> r1[w.name] == r2[w.name])
  {
  }

  /** ClampWindowToScreen applied to each window in turn. */
  function ClampEach(saved: Saved, ws: seq<Window>, display: Vec2, moving: bool): (r: (Saved, seq<Option<Vec2>>))
    ensures |r.1| == |ws|
    ensures forall n :: (forall i :: 0 <= i < |ws| ==> ws[i].name != n) ==>
      (n in r.0 <==> n in saved) && (n in saved ==> r.0[n] == saved[n])
    decreases |ws|
  {
    if ws == [] then (saved, [])
    else
      var first := ClampWindow(saved, ws[0], display, moving);
      var rest := ClampEach(first.saved, ws[1..], display, moving);
      (rest.0, [first.moveTo] + rest.1)
  }

  /** ImGui window names are unique. */
  predicate DistinctNames(ws: seq<Window>)
  {
    forall i, j :: 0 <= i < j < |ws| ==> ws[i].name != ws[j].name
  }

  /** With distinct names, each window is clamped exactly as if it were
      alone: the moves do not depend on the order of the windows. */
  lemma {:induction false} ClampEachIndependent(saved: Saved, ws: seq<Window>, display: Vec2, moving: bool)
    requires DistinctNames(ws)
    ensures forall i :: 0 <= i < |ws| ==>
      ClampEach(saved, ws, display, moving).1[i] == ClampWindow(saved, ws[i], display, moving).moveTo
    decreases |ws|
  {
    if ws != [] {
      var first := ClampWindow(saved, ws[0], display, moving);
      var tail := ws[1..];
      assert DistinctNames(tail);
      ClampEachIndependent(first.saved, tail, display, moving);
      forall i | 1 <= i < |ws|
        ensures ClampEach(saved, ws, display, moving).1[i] == ClampWindow(saved, ws[i], display, moving).moveTo
      {
        assert ws[i] == tail[i - 1];
        assert ws[i].name != ws[0].name;
        ClampWindowIsLocal(first.saved, saved, ws[i], display, moving);
      }
    }
  }

  /** With distinct names, each listed window's remembered entry after the
      whole pass is the one clamping it alone would leave. */
  lemma {:induction false} ClampEachMemory(saved: Saved, ws: seq<Window>, display: Vec2, moving: bool)
    requires DistinctNames(ws)
    ensures forall i :: 0 <= i < |ws| ==>
      var after := ClampEach(saved, ws, display, moving).0;
      var alone := ClampWindow(saved, ws[i], display, moving).saved;
      (ws[i].name in after <==> ws[i].name in alone) && (ws[i].name in after ==> after[ws[i].name] == alone[ws[i].name])
    decreases |ws|
  {
    if ws != [] {
      var first := ClampWindow(saved, ws[0], display, moving);
      var tail := ws[1..];
      assert DistinctNames(tail);
      ClampEachMemory(first.saved, tail, display, moving);
      assert ClampEach(saved, ws, display, moving).0 == ClampEach(first.saved, tail, display, moving).0;
      forall j | 0 <= j < |tail| ensures tail[j].name != ws[0].name {
        assert tail[j] == ws[j + 1];
      }
      forall i | 1 <= i < |ws|
        ensures var after := ClampEach(saved, ws, display, moving).0;
          var alone := ClampWindow(saved, ws[i], display, moving).saved;
          (ws[i].name in after <==> ws[i].name in alone) && (ws[i].name in after ==> after[ws[i].name] == alone[ws[i].name])
      {
        assert ws[i] == tail[i - 1];
        assert ws[i].name != ws[0].name;
        ClampWindowIsLocal(first.saved, saved, ws[i], display, moving);
      }
    }
  }

  /** What ClampAllWindowsToScreen does: the new memory, the move requested
      for each window (when clamping), and the positions restored (when not). */
  datatype ClampAllResult = ClampAllResult(saved: Saved, windowMoves: seq<Option<Vec2>>, restored: map<string, Vec2>)

  /** ClampAllWindowsToScreen: with `clamp` set every window is clamped in
      turn; otherwise every remembered window is put back at its original
      position and the memory is emptied. */
  function ClampAllWindowsToScreen(clamp: bool, saved: Saved, ws: seq<Window>, display: Vec2, moving: bool): (r: ClampAllResult)
    ensures !clamp ==> r.saved == map[] && r.restored == saved && r.windowMoves == []
    ensures clamp ==> r.restored == map[] && |r.windowMoves| == |ws|
    ensures clamp ==> forall n :: (forall i :: 0 <= i < |ws| ==> ws[i].name != n) ==>
      (n in r.saved <==> n in saved) && (n in saved ==> r.saved[n] == saved[n])
  {
    if clamp then
      var each := ClampEach(saved, ws, display, moving);
      ClampAllResult(each.0, each.1, map[])
    else
      ClampAllResult(map[], [], saved)
  }

  /** After clamping all windows, each window has been treated exactly as
      ClampWindowToScreen treats it alone; in particular every window that
      stuck out (judged by its original position) now fits. */
  lemma ClampAllFits(saved: Saved, ws: seq<Window>, display: Vec2, moving: bool, i: int)
    requires DistinctNames(ws) && 0 <= i < |ws|
    ensures var r := ClampAllWindowsToScreen(true, saved, ws, display, moving);
      && r.windowMoves[i] == ClampWindow(saved, ws[i], display, moving).moveTo
      && (Overflows(OriginalPos(saved, ws[i]), ws[i].size, display) ==>
            r.windowMoves[i].Some? && FitsFarEdges(r.windowMoves[i].value, ws[i].size, display))
  {
    ClampEachIndependent(saved, ws, display, moving);
  }

  /** Clamping all windows and then switching clamping off is a round trip:
      a window (not collapsed) that stuck out is put back at its original
      position by the restore-all pass. */
  lemma ClampAllThenRestoreAll(saved: Saved, ws: seq<Window>, display: Vec2, moving: bool, i: int)
    requires DistinctNames(ws) && 0 <= i < |ws|
    requires !ws[i].collapsed && Overflows(OriginalPos(saved, ws[i]), ws[i].size, display)
    ensures var c := ClampAllWindowsToScreen(true, saved, ws, display, moving);
      var off := ClampAllWindowsToScreen(false, c.saved, ws, display, moving);
      && ws[i].name in off.restored
      && off.restored[ws[i].name] == OriginalPos(saved, ws[i])
      && off.saved == map[]
  {
    ClampEachMemory(saved, ws, display, moving);
  }

  /** Only the right and bottom edges are clamped: a window that sticks out
      past the left or top edge of the display is left where it is, and a
      window wider than the display is moved to a negative x. */
  lemma ClampCoversFarEdgesOnly(saved: Saved, w: Window, display: Vec2, moving: bool)
    ensures w.name !in saved && w.pos.x < 0.0 && FitsFarEdges(w.pos, w.size, display) ==>
      ClampWindow(saved, w, display, moving).moveTo.None?
    ensures w.name !in saved && w.pos.x >= 0.0 && display.x >= 0.0 && w.size.x > display.x ==>
      var r := ClampWindow(saved, w, display, moving);
      r.moveTo.Some? && r.moveTo.value.x < 0.0
  {
  }
}

=== FILE: world_map.dfy ===
/** World-map logic of the world-map widget
    (GWToolboxdll/Widgets/WorldMapWidget.cpp): the world-map bounds of a map,
    which map a world-map position belongs to, the conversion between game
    coordinates and world-map coordinates, and the mouse-message handling.
    Host lookups (map info, map context, world-map view) are parameters. */
module WorldMap {
  import opened Wrappers
  import opened Geometry

  /** Game units per world-map unit (fixed by the game). */
  const GameUnitsPerWorldUnit: real := 96.0

  /** MapID::None. */
  const MapIdNone: nat := 0

  // ---------------------------------------------------------------------
  // Map bounds and lookup
  // ---------------------------------------------------------------------

  /** Four consecutive unsigned fields: start x, start y, end x, end y. */
  datatype IconBounds = IconBounds(startX: nat, startY: nat, endX: nat, endY: nat)

  /** The parts of a map's area info that are read: the primary icon
      bounds, the duplicate set, and whether the map is on the world map. */
  datatype AreaInfo = AreaInfo(icon: IconBounds, iconDupe: IconBounds, onWorldMap: bool)

  /** The game-map boundaries of the loaded map (map_boundaries[1..4]). */
  datatype MapContext = MapContext(minX: real, minY: real, maxX: real, maxY: real)

  function BoundsRect(b: IconBounds): (r: Rect)
  {
    Rect(Vec2(b.startX as real, b.startY as real), Vec2(b.endX as real, b.endY as real))
  }

  /** GetMapWorldMapBounds: the primary icon bounds, or the duplicate set
      when the primary start x is 0. */
  function WorldMapBounds(a: AreaInfo): (r: Rect)
    ensures a.icon.startX != 0 ==> r == BoundsRect(a.icon)
    ensures a.icon.startX == 0 ==> r == BoundsRect(a.iconDupe)
    ensures r.min.x == 0.0 ==> a.icon.startX == 0 && a.iconDupe.startX == 0
    ensures r.min.x >= 0.0 && r.min.y >= 0.0 && r.max.x >= 0.0 && r.max.y >= 0.0
  {
    if a.icon.startX == 0 then BoundsRect(a.iconDupe) else BoundsRect(a.icon)
  }

  /** Only one of the two sets of icon bounds is ever read: the duplicate
      set is irrelevant while the primary start x is non-zero, and the
      primary set is irrelevant once it is 0. */
  lemma BoundsReadOneSet(a: AreaInfo, b: AreaInfo)
    ensures a.icon.startX != 0 && a.icon == b.icon ==> WorldMapBounds(a) == WorldMapBounds(b)
    ensures a.icon.startX == 0 && b.icon.startX == 0 && a.iconDupe == b.iconDupe ==> WorldMapBounds(a) == WorldMapBounds(b)
  {
  }

  /** MapContainsWorldPos: the map has area info, is on the world map, and
      its world-map bounds contain the position. */
  predicate MapContainsWorldPos(infos: map<nat, AreaInfo>, id: nat, p: Vec2)
  {
    id in infos && infos[id].onWorldMap && Contains(WorldMapBounds(infos[id]), p)
  }

  /** The lowest id in [from, count) whose map contains the position. */
  function FirstMapContaining(infos: map<nat, AreaInfo>, from: nat, count: nat, p: Vec2): (r: Option<nat>)
    ensures r.Some? ==> from <= r.value < count && MapContainsWorldPos(infos, r.value, p)
    ensures r.Some? ==> forall k :: from <= k < r.value ==> !MapContainsWorldPos(infos, k, p)
    ensures r.None? ==> forall k :: from <= k < count ==> !MapContainsWorldPos(infos, k, p)
    decreases count - from
  {
    if from >= count then None
    else if MapContainsWorldPos(infos, from, p) then Some(from)
    else FirstMapContaining(infos, from + 1, count, p)
  }

  /** GetMapIdForLocation: the current map when it contains the position,
      otherwise the lowest id in 1..count-1 that does, otherwise None. */
  function GetMapIdForLocation(infos: map<nat, AreaInfo>, current: nat, count: nat, p: Vec2): (r: nat)
    ensures MapContainsWorldPos(infos, current, p) ==> r == current
    ensures !MapContainsWorldPos(infos, current, p) && r != MapIdNone ==>
      && 1 <= r < count
      && MapContainsWorldPos(infos, r, p)
      && forall k :: 1 <= k < r ==> !MapContainsWorldPos(infos, k, p)
    ensures !MapContainsWorldPos(infos, current, p) && r == MapIdNone ==>
      forall k :: 1 <= k < count ==> !MapContainsWorldPos(infos, k, p)
  {
    if MapContainsWorldPos(infos, current, p) then current
    else match FirstMapContaining(infos, 1, count, p)
      case Some(id) => id
      case None => MapIdNone
  }

  /** Whatever map is current, an answer other than None always names a
      map that contains the position, and None is answered only when no
      searched map contains it. */
  lemma MapIdForLocationContains(infos: map<nat, AreaInfo>, current: nat, count: nat, p: Vec2)
    ensures var r := GetMapIdForLocation(infos, current, count, p);
      r == MapIdNone && current != MapIdNone ==> forall k :: 1 <= k < count ==> !MapContainsWorldPos(infos, k, p)
    ensures var r := GetMapIdForLocation(infos, current, count, p);
      r != MapIdNone ==> MapContainsWorldPos(infos, r, p)
  {
  }

  // ---------------------------------------------------------------------
  // Coordinate conversion
  // ---------------------------------------------------------------------

  /** The world-map point shared by both conversions as their origin: the
      bounds' minimum corner shifted by the game map's left and top extents
      converted to world-map units. */
  function MapMidWorldPoint(world: Rect, ctx: MapContext): (r: Vec2)
    ensures r.x >= world.min.x && r.y >= world.min.y
    ensures (r.x - world.min.x) * GameUnitsPerWorldUnit == Abs(ctx.minX)
    ensures (r.y - world.min.y) * GameUnitsPerWorldUnit == Abs(ctx.maxY)
  {
    Vec2(world.min.x + Abs(ctx.minX) / GameUnitsPerWorldUnit,
         world.min.y + Abs(ctx.maxY) / GameUnitsPerWorldUnit)
  }

  /** GamePosToWorldMap: fails without area info or map context; otherwise
      scales by 1/96 from the shared origin, with the y axis inverted. The
      z-plane is ignored. */
  function GamePosToWorldMap(info: Option<AreaInfo>, ctx: Option<MapContext>, g: GamePos): (r: Option<Vec2>)
    ensures r.Some? <==> info.Some? && ctx.Some?
    ensures r.Some? ==> var mid := MapMidWorldPoint(WorldMapBounds(info.value), ctx.value);
      && (r.value.x - mid.x) * GameUnitsPerWorldUnit == g.x
      && (r.value.y - mid.y) * GameUnitsPerWorldUnit == -g.y
  {
    match (info, ctx)
    case (Some(a), Some(c)) =>
      var mid := MapMidWorldPoint(WorldMapBounds(a), c);
      Some(Vec2(g.x / GameUnitsPerWorldUnit + mid.x, (g.y * -1.0) / GameUnitsPerWorldUnit + mid.y))
    case _ => None
  }

  /** WorldMapToGamePos: fails without area info, when the position is
      outside the current map's world-map bounds, or without map context;
      otherwise scales by 96 from the shared origin, with the y axis
      inverted. Only x and y are produced. */
  function WorldMapToGamePos(info: Option<AreaInfo>, ctx: Option<MapContext>, w: Vec2): (r: Option<Vec2>)
    ensures r.Some? <==> info.Some? && Contains(WorldMapBounds(info.value), w) && ctx.Some?
    ensures r.Some? ==> var mid := MapMidWorldPoint(WorldMapBounds(info.value), ctx.value);
      && r.value.x / GameUnitsPerWorldUnit + mid.x == w.x
      && -r.value.y / GameUnitsPerWorldUnit + mid.y == w.y
  {
    if info.None? then None
    else
      var world := WorldMapBounds(info.value);
      if !Contains(world, w) then None
      else if ctx.None? then None
      else
        var mid := MapMidWorldPoint(world, ctx.value);
        Some(Vec2((w.x - mid.x) * GameUnitsPerWorldUnit, ((w.y - mid.y) * GameUnitsPerWorldUnit) * -1.0))
  }

  /** Game to world map and back returns the original x and y, whenever the
      world-map point lies inside the current map's bounds. */
  lemma GameWorldGameRoundTrip(info: Option<AreaInfo>, ctx: Option<MapContext>, g: GamePos)
    requires GamePosToWorldMap(info, ctx, g).Some?
    requires Contains(WorldMapBounds(info.value), GamePosToWorldMap(info, ctx, g).value)
    ensures WorldMapToGamePos(info, ctx, GamePosToWorldMap(info, ctx, g).value) == Some(Vec2(g.x, g.y))
  {
  }

  /** World map to game and back returns the original world-map point, for
      any z-plane attached to the game position. */
  lemma WorldGameWorldRoundTrip(info: Option<AreaInfo>, ctx: Option<MapContext>, w: Vec2, zplane: nat)
    requires WorldMapToGamePos(info, ctx, w).Some?
    ensures var p := WorldMapToGamePos(info, ctx, w).value;
      GamePosToWorldMap(info, ctx, GamePos(p.x, p.y, zplane)) == Some(w)
  {
  }

  /** A map contains a world-map position exactly when it is on the world
      map and, with it as the current map, the position converts to game
      coordinates (given a map context). */
  lemma ContainsIffConvertible(infos: map<nat, AreaInfo>, id: nat, p: Vec2, c: MapContext)
    ensures MapContainsWorldPos(infos, id, p) <==>
      id in infos && infos[id].onWorldMap && WorldMapToGamePos(Some(infos[id]), Some(c), p).Some?
  {
  }

  /** The custom quest marker is converted to game coordinates only when
      the map found for it is the current map (not None); then the
      conversion on the current map always succeeds when there is a map
      context, because the lookup only names maps that contain the point. */
  lemma MarkerConvertsOnCurrentMap(infos: map<nat, AreaInfo>, current: nat, count: nat, w: Vec2, ctx: Option<MapContext>)
    requires current != MapIdNone && GetMapIdForLocation(infos, current, count, w) == current
    requires ctx.Some?
    ensures current in infos && MapContainsWorldPos(infos, current, w)
    ensures WorldMapToGamePos(Some(infos[current]), ctx, w).Some?
  {
  }

  /** Conversely, when the conversion on a current map that is on the world
      map succeeds, that map contains the point and the lookup answers it. */
  lemma ConvertibleMeansCurrentMap(infos: map<nat, AreaInfo>, current: nat, count: nat, w: Vec2, ctx: Option<MapContext>)
    requires current in infos && infos[current].onWorldMap
    requires WorldMapToGamePos(Some(infos[current]), ctx, w).Some?
    ensures MapContainsWorldPos(infos, current, w)
    ensures GetMapIdForLocation(infos, current, count, w) == current
  {
  }

  // ---------------------------------------------------------------------
  // Mouse messages
  // ---------------------------------------------------------------------

  /** The window messages the widget reacts to; coordinates are the signed
      client coordinates packed in lParam. */
  datatype Message =
    | RButtonDown
    | MouseMove
    | RButtonUp(x: int, y: int)
    | LButtonDown(x: int, y: int)
    | OtherMessage

  /** The world-map view when present: its zoom and its top-left corner. */
  datatype WorldMapView = WorldMapView(zoom: real, topLeft: Vec2)

  /** The controls of the last drawn frame. Cleared controls are ZeroRect. */
  datatype Rects = Rects(removeMarker: Rect, placeMarker: Rect, showLines: Rect, hardMode: Rect, showAll: Rect)

  /** What the host reports when a message arrives. */
  datatype Host = Host(drawn: bool, worldMapShowing: bool, view: Option<WorldMapView>, rects: Rects)

  /** The widget's own state: a right click in progress, the last click
      position, and the two toggles. */
  datatype WidgetState = WidgetState(clicking: bool, clickPos: Vec2, showLines: bool, showingAllOutposts: bool)

  /** Side effects requested from the host. */
  datatype Effect = OpenContextMenu | EnqueueToggleHardMode | EnqueueShowAllOutposts

  /** The new state, the effect, and whether the message was consumed. */
  datatype WndResult = WndResult(state: WidgetState, effect: Option<Effect>, handled: bool)

  /** The controls in the order a left click tests them. */
  datatype Control = RemoveMarkerButton | PlaceMarkerButton | ShowLinesBox | HardModeBox | ShowAllBox

  function Rank(c: Control): (n: nat)
  {
    match c
    case RemoveMarkerButton => 0
    case PlaceMarkerButton => 1
    case ShowLinesBox => 2
    case HardModeBox => 3
    case ShowAllBox => 4
  }

  function RectOf(rects: Rects, c: Control): (r: Rect)
  {
    match c
    case RemoveMarkerButton => rects.removeMarker
    case PlaceMarkerButton => rects.placeMarker
    case ShowLinesBox => rects.showLines
    case HardModeBox => rects.hardMode
    case ShowAllBox => rects.showAll
  }

  /** The control hit by a left click: the first, in test order, whose
      rectangle contains the point. */
  function HitControl(rects: Rects, p: Vec2): (r: Option<Control>)
    ensures r.Some? ==> Contains(RectOf(rects, r.value), p)
    ensures r.Some? ==> forall c :: Rank(c) < Rank(r.value) ==> !Contains(RectOf(rects, c), p)
    ensures r.None? ==> forall c :: !Contains(RectOf(rects, c), p)
  {
    if Contains(rects.removeMarker, p) then Some(RemoveMarkerButton)
    else if Contains(rects.placeMarker, p) then Some(PlaceMarkerButton)
    else if Contains(rects.showLines, p) then Some(ShowLinesBox)
    else if Contains(rects.hardMode, p) then Some(HardModeBox)
    else if Contains(rects.showAll, p) then Some(ShowAllBox)
    else None
  }

  /** WorldMapWidget::WndProc. */
  function WndProc(st: WidgetState, host: Host, msg: Message): (r: WndResult)
    ensures !msg.LButtonDown? ==> !r.handled
    ensures msg.RButtonDown? ==> r.state.clicking
    ensures msg.MouseMove? || msg.RButtonUp? ==> !r.state.clicking
    ensures msg.LButtonDown? || msg.OtherMessage? ==> r.state.clicking == st.clicking
    // Only a left click touches the toggles or queues game-thread work;
    // only an opened context menu moves the recorded click position.
    ensures !msg.LButtonDown? ==>
      && r.state.showLines == st.showLines
      && r.state.showingAllOutposts == st.showingAllOutposts
      && (r.effect.None? || r.effect == Some(OpenContextMenu))
    ensures r.effect != Some(OpenContextMenu) ==> r.state.clickPos == st.clickPos
  {
    match msg
    case RButtonDown => WndResult(st.(clicking := true), None, false)
    case MouseMove => WndResult(st.(clicking := false), None, false)
    case RButtonUp(x, y) =>
      if !st.clicking then WndResult(st, None, false)
      else if host.view.None? || host.view.value.zoom != 1.0 then WndResult(st.(clicking := false), None, false)
      else
        var tl := host.view.value.topLeft;
        WndResult(st.(clicking := false, clickPos := Vec2(x as real + tl.x, y as real + tl.y)), Some(OpenContextMenu), false)
    case LButtonDown(x, y) =>
      if !host.drawn || !host.worldMapShowing then WndResult(st, None, false)
      else
        (match HitControl(host.rects, Vec2(x as real, y as real))
         case None => WndResult(st, None, false)
         case Some(RemoveMarkerButton) => WndResult(st, None, true)
         case Some(PlaceMarkerButton) => WndResult(st, None, true)
         case Some(ShowLinesBox) => WndResult(st.(showLines := !st.showLines), None, true)
         case Some(HardModeBox) => WndResult(st, Some(EnqueueToggleHardMode), true)
         case Some(ShowAllBox) =>
           WndResult(st.(showingAllOutposts := !st.showingAllOutposts), Some(EnqueueShowAllOutposts), true))
    case OtherMessage => WndResult(st, None, false)
  }

  /** The context menu opens exactly on a right-button-up while a right
      click is in progress and the world map is shown at zoom 1; it records
      the click in world-map coordinates. */
  lemma ContextMenuRule(st: WidgetState, host: Host, msg: Message)
    ensures var r := WndProc(st, host, msg);
      && (r.effect == Some(OpenContextMenu) <==>
            msg.RButtonUp? && st.clicking && host.view.Some? && host.view.value.zoom == 1.0)
      && (r.effect == Some(OpenContextMenu) ==>
            r.state.clickPos == Vec2(msg.x as real + host.view.value.topLeft.x, msg.y as real + host.view.value.topLeft.y))
  {
  }

  /** A left click is consumed exactly when the widget was drawn, the world
      map is showing and a control was hit; only the show-lines box flips
      the show-lines toggle, and it flips it once. */
  lemma LeftClickRule(st: WidgetState, host: Host, x: int, y: int)
    ensures var r := WndProc(st, host, LButtonDown(x, y));
      var hit := HitControl(host.rects, Vec2(x as real, y as real));
      && (r.handled <==> host.drawn && host.worldMapShowing && hit.Some?)
      && (r.state.showLines != st.showLines <==> r.handled && hit == Some(ShowLinesBox))
      && (r.state.showingAllOutposts != st.showingAllOutposts <==> r.handled && hit == Some(ShowAllBox))
      && (r.effect == Some(EnqueueToggleHardMode) <==> r.handled && hit == Some(HardModeBox))
  {
  }

  /** A cleared control (the hard-mode box outside an outpost) can never be
      hit. */
  lemma ClearedControlNeverHit(rects: Rects, p: Vec2)
    requires rects.hardMode == ZeroRect
    ensures HitControl(rects, p) != Some(HardModeBox)
  {
    ZeroRectContainsNothing(p);
  }

  /** The state after a sequence of messages, each with its host snapshot. */
  function Run(st: WidgetState, events: seq<(Host, Message)>): (r: WidgetState)
    decreases |events|
  {
    if events == [] then st
    else Run(WndProc(st, events[0].0, events[0].1).state, events[1..])
  }

  /** A message that ends a right click in progress. */
  predicate Disarms(m: Message)
  {
    m.MouseMove? || m.RButtonUp?
  }

  /** No message of the sequence ends a right click. */
  predicate Quiet(events: seq<(Host, Message)>)
  {
    forall j :: 0 <= j < |events| ==> !Disarms(events[j].1)
  }

  /** Some right-button-down of the sequence is followed by no message
      that ends the click. */
  ghost predicate ArmedBy(events: seq<(Host, Message)>)
  {
    exists i :: 0 <= i < |events| && events[i].1.RButtonDown? && Quiet(events[i + 1..])
  }

  lemma QuietShift(events: seq<(Host, Message)>)
    requires events != []
    ensures Quiet(events) <==> !Disarms(events[0].1) && Quiet(events[1..])
  {
    if !Disarms(events[0].1) && Quiet(events[1..]) {
      forall j | 0 < j < |events| ensures !Disarms(events[j].1) {
        assert events[j] == events[1..][j - 1];
      }
    }
  }

  lemma ArmedByShift(events: seq<(Host, Message)>)
    requires events != []
    ensures ArmedBy(events) <==> ArmedBy(events[1..]) || (events[0].1.RButtonDown? && Quiet(events[1..]))
  {
    var tail := events[1..];
    if ArmedBy(events) {
      var i :| 0 <= i < |events| && events[i].1.RButtonDown? && Quiet(events[i + 1..]);
      if i > 0 {
        assert tail[i - 1] == events[i] && tail[i..] == events[i + 1..];
      }
    }
    if ArmedBy(tail) {
      var i :| 0 <= i < |tail| && tail[i].1.RButtonDown? && Quiet(tail[i + 1..]);
      assert events[i + 1] == tail[i] && events[i + 2..] == tail[i + 1..];
    }
  }

  /** A right click is in progress after a sequence of messages exactly when
      some right-button-down was followed by no mouse-move and no
      right-button-up, or one was already in progress and no message since
      ended it. */
  lemma {:induction false} ClickingAfterRun(st: WidgetState, events: seq<(Host, Message)>)
    ensures Run(st, events).clicking <==> ArmedBy(events) || (st.clicking && Quiet(events))
    decreases |events|
  {
    if events != [] {
      var st1 := WndProc(st, events[0].0, events[0].1).state;
      ClickingAfterRun(st1, events[1..]);
      QuietShift(events);
      ArmedByShift(events);
    }
  }

  /** The context menu opens only for a right-button-up that ends a right
      click begun by a right-button-down (earlier in the sequence, or
      already in progress) with no mouse-move or right-button-up since. */
  lemma ContextMenuNeedsUnbrokenClick(st: WidgetState, events: seq<(Host, Message)>, host: Host, x: int, y: int)
    requires WndProc(Run(st, events), host, RButtonUp(x, y)).effect == Some(OpenContextMenu)
    ensures ArmedBy(events) || (st.clicking && Quiet(events))
  {
    ClickingAfterRun(st, events);
  }
}

=== FILE: wrappers.dfy ===
/** Optional values, standing in for the nullable pointers and the
    "bool + out-parameter" returns of the modelled code. */
module Wrappers {

  datatype Option<+T> = None | Some(value: T)
}
